=== FILE: README.md ===
# SQL chat backend: schema grouping and tool-call resolution

A Dafny model of the core of a small web backend that lets a client ask natural-language
questions about SQL Server databases. For every request the `/allDbsAndSchemas` handler:

1. rejects a missing or empty user query;
2. enumerates the databases, drops the system ones (`master`, `tempdb`, `model`, `msdb`), and
   turns each remaining database's catalog rows (table, column, data type, sizes) into a
   `{databaseName, tables: [{tableName, columns: [{columnName, dataType}]}]}` entry,
   grouping find-or-create by table name;
3. appends a system message carrying the schema and the user query to the incoming history;
4. calls the language model once with the `ask_database` tool declared. A direct assistant
   answer is appended. Tool calls are resolved instead: each `ask_database` call runs its SQL
   and becomes a `tool` message correlated by id. The model is then called once more, without
   tools, and only its final answer is appended;
5. sends back the extended history. If the conversation gave no result, it sends the
   history it had sent to the model.

The language model, the SQL engine, argument decoding and JSON rendering are inputs
(`Handler.Collaborators`). Every step returns a `Run`: its result plus the ordered trace of
collaborator calls it made. The trace records database enumeration, catalog fetches, model
calls with their exact messages and options, and SQL queries. This is how the model states
facts such as "rejected before any database or model work", "exactly one model round trip"
and "no query for an unknown tool".

Files, one module each: `wrappers.dfy` (Option/Result), `schema.dfy` (rows, tables and the
grouping), `introspection.dfy` (discovery across databases), `tool_declaration.dfy`
(`createOptions`), `messages.dfy`, `effects.dfy` (the trace), `tool_calls.dfy`
(`ask_database`, `applyToolCall`, `Promise.all`), `conversation.dfy`
(`getChatGptAnswerObjectWithFunction`) and `handler.dfy` (the route).

Behaviours of the code that the model keeps:

- The tool declaration interpolates the schema ARRAY into a template string. That yields
  `[object Object]` once per database, joined by commas, not a serialization of the schema.
  The declaration therefore depends only on the number of databases
  (`CreateOptionsDependsOnlyOnCount`). The schema itself reaches the model only through
  the system message.
- No fixed system preamble is prepended. The preamble list in index.js:98-110 is never used,
  and the history sent to the model starts with the incoming history.
- When the conversation fails, the handler does not answer with an error status. It sends
  the pre-call history.
- A rejected catalog query is not caught by the handler, so the client gets no response
  (`Aborted`). What an unhandled rejection does to the process as a whole is outside this
  per-request model.
- On the tool path, the assistant's tool-call message and the `tool` messages go only to the
  second model call. The returned history gains just the final answer.
- The role of the second reply is not checked, and tool calls in that reply are not resolved.

## Model

| member | source | states |
|---|---|---|
| Schema.FindTable | index.js:271 | the index found holds a table of that name and no earlier table has it; none is found exactly when no table has the name |
| Schema.AddRow | index.js:270-282 | one row adds exactly one column; existing tables keep their names, a new table is added only for an unseen name and holds just the row's column; with unique names, exactly the table carrying the row's name gains its column and every other table's columns stay as they were; unique names stay unique. GroupRowsIsReference describes the fold of these steps |
| Schema.GroupRows | index.js:265-283 | the tables built from one database's rows have pairwise distinct names, and their column counts add up to the number of rows |
| Schema.GroupRowsIsReference | index.js:265-283 | find-or-create grouping equals an independent definition: one table per distinct table name, holding exactly the columns of that table's rows |
| Schema.GroupRowsOrder | index.js:270-279 | tables appear in the order their name first occurs among the rows, and each table's columns follow row order |
| Schema.EveryRowPlaced | index.js:281-282 | every row's column is found in a table carrying that row's table name, so no row is lost |
| Schema.GroupRowsIgnoresSizes | index.js:266-268 | rows that agree on table name, column name and data type give the same tables, so size and precision fields are not carried |
| Introspection.EligibleDatabases | index.js:232-238 | keeps exactly the enumerated names outside master, tempdb, model and msdb; a single name is kept exactly when it is not a system database |
| Introspection.EligibleDatabasesAppend | index.js:237-238 | the filter distributes over concatenation, so with the one-name case it keeps enumeration order and every occurrence |
| Introspection.BuildSchema | index.js:237-286 | only non-system databases are fetched and only they get entries; BuildSchemaFetches, BuildSchemaEntries and BuildSchemaFailure give its exact outcome |
| Introspection.BuildSchemaFetches | index.js:237-258 | catalog queries are made only for eligible databases, one at a time in enumeration order; discovery succeeds exactly when every eligible query does |
| Introspection.BuildSchemaEntries | index.js:236-286 | on success there is exactly one entry per eligible database, in enumeration order, named after it and holding its grouped rows |
| Introspection.BuildSchemaFailure | index.js:240-258 | a failure carries the error of the first rejected eligible query; that query is the last one made and all earlier ones succeeded |
| ToolDeclarations.CreateOptions | index.js:113-135 | a single function tool named ask_database whose only property, and only required parameter, is the string query |
| ToolDeclarations.CreateOptionsDependsOnlyOnCount | index.js:126 | two schemas give equal tool options exactly when they have equally many databases |
| ToolCalls.AskDatabase | index.js:137-147 | issues exactly the one query; gives the record-set text on success and the error text on rejection, never failing |
| ToolCalls.ApplyToolCall | index.js:149-162 | succeeds exactly for an ask_database call whose arguments decode. The result is a tool message with the call's id and the fixed prefix followed by the query's result text. Any other name fails with UnknownTool and runs no query |
| ToolCalls.QueryFailureBecomesContent | index.js:142-157 | a query the engine rejects still yields the tool message, whose content is the fixed prefix followed by the error text |
| ToolCalls.ResolveToolCalls | index.js:177-179 | only SQL queries are issued, and a result has one message per call; ResolveToolCallsCorrelates and ResolveToolCallsQueries give the rest |
| ToolCalls.ResolveToolCallsCorrelates | index.js:177-185 | resolution succeeds exactly when every call is well formed, giving one tool message per call, in request order, carrying that call's id |
| ToolCalls.ResolveToolCallsQueries | index.js:177-179 | one query per well-formed call, whether or not another call fails: the query of each well-formed call is issued right after those of the well-formed calls before it, so the queries are exactly those of the well-formed calls, in request order |
| ToolCalls.QueryOfCall | index.js:149-178 | the query of well-formed call k is the effect at the position given by the number of well-formed calls before k |
| Conversation.AnswerWithTool | index.js:165-206 | a result extends the history by exactly one message; the first effect is the model call on that history with the tool options |
| Conversation.DirectAnswer | index.js:198-200 | an assistant reply without tool calls is appended, after exactly one model call |
| Conversation.NotAnAssistantReply | index.js:169-175 | a failed first call, or a first reply not from the assistant, gives no result after one model call |
| Conversation.ToolRound | index.js:174-194 | with well-formed tool calls there is one query per call, then one more call without tools on history ++ [reply] ++ correlated tool messages. The result is the history plus only the final answer |
| Conversation.ToolRoundFails | index.js:176-197 | a call that names another tool or whose arguments do not decode gives no result and no second model call |
| Conversation.AtMostTwoModelCalls | index.js:165-206 | every conversation makes one or two model calls, never more |
| Handler.HandleAllDbsAndSchemas | index.js:222-316 | a missing or empty user query gives 400 with no collaborator call; otherwise enumeration comes first. A sent history implies discovery succeeded, and starts with the incoming history, the schema message built from the discovered schema and the user query, with at most one more entry |
| Handler.PreCallHistory | index.js:289-296 | the incoming history unchanged, then the schema system message, then the user query entry; ModelSeesHistory and FallbackToPreCallHistory show where it is used |
| Handler.ModelSeesHistory | index.js:289-302 | right after the catalog queries, the model receives the incoming history, the schema message and the user query, with the tool options |
| Handler.FallbackToPreCallHistory | index.js:311-316 | without a conversation result the handler sends the history it sent to the model; otherwise it sends the extended history |
| Handler.DiscoveryFailureAborts | index.js:230-258 | a rejected enumeration or catalog query aborts the request with no model call |
| Handler.DiscoveryFirst | index.js:230-302 | every catalog query precedes every model call and SQL query, and no system database is ever queried |

## Left out

- Express setup, CORS checks and headers, body parsing, and the `/` and catch-all routes (index.js:1-56, 211-213, 321-323). These are HTTP plumbing.
- The `if (!sql)` guard (index.js:217-220) is not modelled. The imported driver object is always present.
- The catch around the conversation (index.js:305-308) is not modelled. The conversation catches its own failures, so that branch is never taken.
- Database connection and model-client construction, and environment configuration (index.js:58-95). These are foreign clients and are replaced by `Handler.Collaborators`.
- The SQL text of the catalog query and of generated queries, and how they execute. Their results are inputs: `databases`, `metadata` and `runQuery`.
- JSON rendering and parsing. `JSON.stringify` of the schema is the `stringify` input. `JSON.parse` of the arguments, followed by taking `query`, is the partial `decodeArguments` input: `None` stands for a parse that throws or yields `null`. Arguments that parse to an object without `query` are a `Some(_)` decode whose query the engine rejects, so that call still yields a tool message carrying the error text. Record sets and errors reach the model already as text (`QueryOutcome`).
- The concurrency of `Promise.all` is not modelled. It is a sequential, order-preserving map. Which rejection wins is not modelled either, because the error is only logged.
- Logging (`console.log`).
- Handler.HandleAllDbsAndSchemas: falsy user queries other than an absent value and the empty string (`0`, `false`) are not modelled, and neither is a missing or non-array `messageHistory`.
- Conversation.AnswerWithTool: a second reply whose first choice exists but carries no message would push `undefined` into the history. The model treats every unusable second reply as no result.
- Conversation.AnswerWithTool: malformed argument JSON and an unknown tool name are distinguished (`ToolError`), but both end in no result, as in the code.

=== FILE: conversation.dfy ===
/** The two-round conversation with the language model: a first call offering the
    `ask_database` tool, and, when the model asks for tools, one resolution round and one
    more call without tools for the final answer. */
module Conversation {
  import opened Wrappers
  import opened Schema
  import opened Messages
  import opened ToolDeclarations
  import opened Effects
  import opened ToolCalls

  /** The model service: a reply for a history and optional tool options, or `None` when the
      round trip fails or returns no message. */
  type Model = (seq<Message>, Option<ToolOptions>) -> Option<Message>

  /** `getChatGptAnswerObjectWithFunction`. The result is the history extended with the
      answer, or `None` ("no result") on any failure. */
  function AnswerWithTool(
    history: seq<Message>, schema: seq<DatabaseSchema>,
    complete: Model, decode: string -> Option<string>, run: string -> QueryOutcome)
    : (r: Run<Option<seq<Message>>>)
    ensures r.result.Some? ==> |r.result.value| == |history| + 1 && r.result.value[..|history|] == history
    ensures 0 < |r.effects| && r.effects[0] == CallModel(history, Some(CreateOptions(schema)))
  {
    var options := Some(CreateOptions(schema));
    var first := CallModel(history, options);
    match complete(history, options)
    case None => Run(None, [first])
    case Some(reply) =>
      if !reply.AssistantMessage? then Run(None, [first])
      else if |reply.toolCalls| == 0 then Run(Some(history + [reply]), [first])
      else
        var resolved := ResolveToolCalls(reply.toolCalls, decode, run);
        match resolved.result
        case None => Run(None, [first] + resolved.effects)
        case Some(toolMessages) =>
          var followUp := history + [reply] + toolMessages;
          var second := CallModel(followUp, None);
          match complete(followUp, None)
          case None => Run(None, [first] + resolved.effects + [second])
          case Some(answer) => Run(Some(history + [answer]), [first] + resolved.effects + [second])
  }

  /** A first reply from the assistant without tool calls is appended as it is, after
      exactly one model round trip. */
  lemma DirectAnswer(
    history: seq<Message>, schema: seq<DatabaseSchema>,
    complete: Model, decode: string -> Option<string>, run: string -> QueryOutcome, reply: Message)
    requires complete(history, Some(CreateOptions(schema))) == Some(reply)
    requires reply.AssistantMessage? && |reply.toolCalls| == 0
    ensures AnswerWithTool(history, schema, complete, decode, run).result == Some(history + [reply])
    ensures AnswerWithTool(history, schema, complete, decode, run).effects
         == [CallModel(history, Some(CreateOptions(schema)))]
  {
  }

  /** A failed first call, or a first reply in any role but `assistant`, gives no result. */
  lemma NotAnAssistantReply(
    history: seq<Message>, schema: seq<DatabaseSchema>,
    complete: Model, decode: string -> Option<string>, run: string -> QueryOutcome)
    requires complete(history, Some(CreateOptions(schema))).None?
          || !complete(history, Some(CreateOptions(schema))).value.AssistantMessage?
    ensures AnswerWithTool(history, schema, complete, decode, run).result == None
    ensures AnswerWithTool(history, schema, complete, decode, run).effects
         == [CallModel(history, Some(CreateOptions(schema)))]
  {
  }

  /** When every requested call is well formed: one query per call in request order, then
      exactly one more model call, without tool options, on the history followed by the
      reply and one correlated `tool` message per call; only the final answer is returned. */
  lemma ToolRound(
    history: seq<Message>, schema: seq<DatabaseSchema>,
    complete: Model, decode: string -> Option<string>, run: string -> QueryOutcome, reply: Message)
    requires complete(history, Some(CreateOptions(schema))) == Some(reply)
    requires reply.AssistantMessage? && |reply.toolCalls| > 0
    requires forall i :: 0 <= i < |reply.toolCalls| ==> WellFormed(reply.toolCalls[i], decode)
    ensures var calls := reply.toolCalls;
      var toolMessages := Answers(calls, decode, run);
      var followUp := history + [reply] + toolMessages;
      var r := AnswerWithTool(history, schema, complete, decode, run);
      && (forall i :: 0 <= i < |calls| ==> toolMessages[i].toolCallId == calls[i].id)
      && |r.effects| == |calls| + 2
      && r.effects[0] == CallModel(history, Some(CreateOptions(schema)))
      && (forall i :: 0 <= i < |calls| ==> r.effects[i + 1] == RunQuery(decode(calls[i].arguments).value))
      && r.effects[|calls| + 1] == CallModel(followUp, None)
      && r.result == match complete(followUp, None)
           case Some(answer) => Some(history + [answer])
           case None => None
  {
    var calls := reply.toolCalls;
    QueriesOfBatch(calls, decode, run);
    var resolved := ResolveToolCalls(calls, decode, run);
    ResolvedAreAnswers(calls, decode, run);
    ToolPathLayout(history, schema, complete, decode, run, reply);
    var r := AnswerWithTool(history, schema, complete, decode, run);
    var first := CallModel(history, Some(CreateOptions(schema)));
    var second := CallModel(history + [reply] + Answers(calls, decode, run), None);
    assert r.effects == [first] + resolved.effects + [second];
    assert |resolved.effects| == |calls|;
    forall i | 0 <= i < |calls|
      ensures r.effects[i + 1] == resolved.effects[i]
    {
    }
    assert r.effects[|calls| + 1] == second;
  }

  /** Resolving well-formed calls yields exactly their answers. */
  lemma ResolvedAreAnswers(calls: seq<ToolCall>, decode: string -> Option<string>, run: string -> QueryOutcome)
    requires forall i :: 0 <= i < |calls| ==> WellFormed(calls[i], decode)
    ensures ResolveToolCalls(calls, decode, run).result == Some(Answers(calls, decode, run))
  {
    ResolveToolCallsCorrelates(calls, decode, run);
    var resolved := ResolveToolCalls(calls, decode, run);
    var toolMessages := Answers(calls, decode, run);
    assert resolved.result.value == toolMessages by {
      assert |resolved.result.value| == |toolMessages|;
      assert forall i :: 0 <= i < |calls| ==> resolved.result.value[i] == toolMessages[i];
    }
  }

  /** The tool path after a successful resolution: the first call, the resolution's queries,
      the call for the final answer; and only that answer is appended. */
  lemma ToolPathLayout(
    history: seq<Message>, schema: seq<DatabaseSchema>,
    complete: Model, decode: string -> Option<string>, run: string -> QueryOutcome, reply: Message)
    requires complete(history, Some(CreateOptions(schema))) == Some(reply)
    requires reply.AssistantMessage? && |reply.toolCalls| > 0
    requires ResolveToolCalls(reply.toolCalls, decode, run).result.Some?
    ensures var resolved := ResolveToolCalls(reply.toolCalls, decode, run);
      var followUp := history + [reply] + resolved.result.value;
      var r := AnswerWithTool(history, schema, complete, decode, run);
      && r.effects == [CallModel(history, Some(CreateOptions(schema)))] + resolved.effects + [CallModel(followUp, None)]
      && r.result == match complete(followUp, None)
           case Some(answer) => Some(history + [answer])
           case None => None
  {
  }

  /** When some requested call names another tool or has undecodable arguments, there is no
      result and no second model call. */
  lemma ToolRoundFails(
    history: seq<Message>, schema: seq<DatabaseSchema>,
    complete: Model, decode: string -> Option<string>, run: string -> QueryOutcome, reply: Message, k: nat)
    requires complete(history, Some(CreateOptions(schema))) == Some(reply)
    requires reply.AssistantMessage? && k < |reply.toolCalls|
    requires !WellFormed(reply.toolCalls[k], decode)
    ensures AnswerWithTool(history, schema, complete, decode, run).result == None
    ensures ModelCalls(AnswerWithTool(history, schema, complete, decode, run).effects) == 1
  {
    var calls := reply.toolCalls;
    ResolveToolCallsCorrelates(calls, decode, run);
    QueriesOfBatch(calls, decode, run);
    var resolved := ResolveToolCalls(calls, decode, run);
    var first := CallModel(history, Some(CreateOptions(schema)));
    NoModelCalls(resolved.effects);
    ModelCallsAppend([first], resolved.effects);
    assert ModelCalls([first]) == 1 by {
      assert [first][..0] == [];
    }
  }

  /** The protocol stops after two rounds: at least one and at most two model calls. */
  lemma AtMostTwoModelCalls(
    history: seq<Message>, schema: seq<DatabaseSchema>,
    complete: Model, decode: string -> Option<string>, run: string -> QueryOutcome)
    ensures 1 <= ModelCalls(AnswerWithTool(history, schema, complete, decode, run).effects) <= 2
  {
    var options := Some(CreateOptions(schema));
    var first := CallModel(history, options);
    assert ModelCalls([first]) == 1 by {
      assert [first][..0] == [];
    }
    match complete(history, options)
    case None =>
    case Some(reply) =>
      if reply.AssistantMessage? && |reply.toolCalls| > 0 {
        var resolved := ResolveToolCalls(reply.toolCalls, decode, run);
        QueriesOfBatch(reply.toolCalls, decode, run);
        NoModelCalls(resolved.effects);
        ModelCallsAppend([first], resolved.effects);
        if resolved.result.Some? {
          var second := CallModel(history + [reply] + resolved.result.value, None);
          ModelCallsAppend([first] + resolved.effects, [second]);
          assert ModelCalls([second]) == 1 by {
            assert [second][..0] == [];
          }
        }
      }
  }
}

=== FILE: effects.dfy ===
/** The observable calls the request makes on its collaborators, recorded in order. */
module Effects {
  import opened Wrappers
  import opened Messages
  import opened ToolDeclarations

  datatype Effect =
    | EnumerateDatabases
    | FetchMetadata(database: string)
    | CallModel(messages: seq<Message>, options: Option<ToolOptions>)
    | RunQuery(query: string)

  /** A step's outcome together with the collaborator calls it made. */
  datatype Run<+T> = Run(result: T, effects: seq<Effect>)

  /** Schema discovery: the catalog queries made before any model work. */
  predicate IsDiscovery(e: Effect) {
    e.EnumerateDatabases? || e.FetchMetadata?
  }

  function ModelCalls(effects: seq<Effect>): nat {
    if |effects| == 0 then 0
    else ModelCalls(effects[..|effects| - 1]) + (if effects[|effects| - 1].CallModel? then 1 else 0)
  }

  lemma {:induction false} ModelCallsAppend(a: seq<Effect>, b: seq<Effect>)
    ensures ModelCalls(a + b) == ModelCalls(a) + ModelCalls(b)
  {
    if |b| > 0 {
      assert (a + b)[..|a + b| - 1] == a + b[..|b| - 1];
      ModelCallsAppend(a, b[..|b| - 1]);
    } else {
      assert a + b == a;
    }
  }

  lemma {:induction false} NoModelCalls(effects: seq<Effect>)
    requires forall i :: 0 <= i < |effects| ==> !effects[i].CallModel?
    ensures ModelCalls(effects) == 0
  {
    if |effects| > 0 {
      NoModelCalls(effects[..|effects| - 1]);
    }
  }
}

=== FILE: handler.dfy ===
/** The `/allDbsAndSchemas` request: validate the user query, discover the schema, extend the
    history with the schema and the query, converse with the model, and answer with the
    updated history or, when the conversation gave no result, the history sent to it. */
module Handler {
  import opened Wrappers
  import opened Schema
  import opened Messages
  import opened ToolDeclarations
  import opened Effects
  import opened Introspection
  import opened ToolCalls
  import opened Conversation

  /** The request body; an absent `userQuery` is `None`. The query is pushed into the history
      as it arrives, so it is a history entry already: a string is `PlainText`. */
  datatype Request = Request(userQuery: Option<Message>, messageHistory: seq<Message>)

  /** `BadRequest` is status 400; `Aborted` is a request whose discovery query was rejected
      and that the handler never answers; `Sent` carries the history sent back. */
  datatype Response = BadRequest(body: string) | Aborted | Sent(history: seq<Message>)

  /** Everything outside the process: the database list, the per-database catalog query,
      the model service, argument decoding, SQL execution and JSON rendering of the schema. */
  datatype Collaborators = Collaborators(
    databases: Result<seq<string>, string>,
    metadata: string -> Result<seq<Row>, string>,
    complete: Model,
    decodeArguments: string -> Option<string>,
    runQuery: string -> QueryOutcome,
    stringify: seq<DatabaseSchema> -> string)

  const SchemaPreamble := "here is the json with all databases, tables and columns with data types: "

  /** A falsy `userQuery`: absent or the empty string. */
  predicate MissingQuery(q: Option<Message>) {
    q.None? || q.value == PlainText("")
  }

  function SchemaMessage(schema: seq<DatabaseSchema>, stringify: seq<DatabaseSchema> -> string): Message {
    SystemMessage(SchemaPreamble + stringify(schema))
  }

  /** The history sent to the model: the incoming history, the schema, the user query. */
  function PreCallHistory(req: Request, schema: seq<DatabaseSchema>, stringify: seq<DatabaseSchema> -> string)
    : (h: seq<Message>)
    requires !MissingQuery(req.userQuery)
    ensures |h| == |req.messageHistory| + 2 && h[..|req.messageHistory|] == req.messageHistory
    ensures h[|req.messageHistory|] == SchemaMessage(schema, stringify)
    ensures h[|req.messageHistory| + 1] == req.userQuery.value
  {
    req.messageHistory + [SchemaMessage(schema, stringify), req.userQuery.value]
  }

  function HandleAllDbsAndSchemas(req: Request, env: Collaborators): (r: Run<Response>)
    ensures r.result.BadRequest? <==> MissingQuery(req.userQuery)
    ensures r.result.BadRequest? ==> r.effects == []
    ensures !r.result.BadRequest? ==> 0 < |r.effects| && r.effects[0] == EnumerateDatabases
    ensures r.result.Sent? ==>
      var n := |req.messageHistory|;
      && n + 2 <= |r.result.history| <= n + 3
      && r.result.history[..n] == req.messageHistory
      && env.databases.Success?
      && BuildSchema(env.databases.value, env.metadata).result.Success?
      && r.result.history[n] == SchemaMessage(BuildSchema(env.databases.value, env.metadata).result.value, env.stringify)
      && r.result.history[n + 1] == req.userQuery.value
  {
    if MissingQuery(req.userQuery) then Run(BadRequest("No user query"), [])
    else match env.databases
      case Failure(_) => Run(Aborted, [EnumerateDatabases])
      case Success(names) =>
        var built := BuildSchema(names, env.metadata);
        match built.result
        case Failure(_) => Run(Aborted, [EnumerateDatabases] + built.effects)
        case Success(schema) =>
          var history := PreCallHistory(req, schema, env.stringify);
          var answer := AnswerWithTool(history, schema, env.complete, env.decodeArguments, env.runQuery);
          var sent := if answer.result.Some? then answer.result.value else history;
          assert sent[..|req.messageHistory| + 2] == history;
          Run(Sent(sent), [EnumerateDatabases] + built.effects + answer.effects)
  }

  /** The first model call receives the incoming history, then the schema message, then the
      user query, and comes right after the catalog queries. */
  lemma ModelSeesHistory(req: Request, env: Collaborators, names: seq<string>, schema: seq<DatabaseSchema>)
    requires !MissingQuery(req.userQuery)
    requires env.databases == Success(names)
    requires BuildSchema(names, env.metadata).result == Success(schema)
    ensures var r := HandleAllDbsAndSchemas(req, env);
      var k := |EligibleDatabases(names)| + 1;
      && k < |r.effects|
      && r.effects[k] == CallModel(
           req.messageHistory + [SchemaMessage(schema, env.stringify), req.userQuery.value],
           Some(CreateOptions(schema)))
  {
    BuildSchemaFetchOrder(names, env.metadata);
    var built := BuildSchema(names, env.metadata);
    var history := PreCallHistory(req, schema, env.stringify);
    var answer := AnswerWithTool(history, schema, env.complete, env.decodeArguments, env.runQuery);
    var r := HandleAllDbsAndSchemas(req, env);
    assert r.effects == [EnumerateDatabases] + built.effects + answer.effects;
    assert |built.effects| == |EligibleDatabases(names)|;
    assert r.effects[|built.effects| + 1] == answer.effects[0];
    assert history == req.messageHistory + [SchemaMessage(schema, env.stringify), req.userQuery.value];
  }

  /** When the conversation gives no result, the handler sends the history it sent to the
      model; otherwise it sends the extended history. */
  lemma FallbackToPreCallHistory(req: Request, env: Collaborators, names: seq<string>, schema: seq<DatabaseSchema>)
    requires !MissingQuery(req.userQuery)
    requires env.databases == Success(names)
    requires BuildSchema(names, env.metadata).result == Success(schema)
    ensures var history := PreCallHistory(req, schema, env.stringify);
      var answer := AnswerWithTool(history, schema, env.complete, env.decodeArguments, env.runQuery);
      HandleAllDbsAndSchemas(req, env).result
        == Sent(if answer.result.Some? then answer.result.value else history)
  {
  }

  /** A rejected catalog query aborts the request before any model call. */
  lemma DiscoveryFailureAborts(req: Request, env: Collaborators)
    requires !MissingQuery(req.userQuery)
    requires env.databases.Failure? || BuildSchema(env.databases.value, env.metadata).result.Failure?
    ensures HandleAllDbsAndSchemas(req, env).result == Aborted
    ensures ModelCalls(HandleAllDbsAndSchemas(req, env).effects) == 0
  {
    var r := HandleAllDbsAndSchemas(req, env);
    if env.databases.Success? {
      BuildSchemaFetches(env.databases.value, env.metadata);
    }
    NoModelCalls(r.effects);
  }

  /** Discovery comes first: every catalog query precedes every model call and SQL query,
      and no system database is ever queried. */
  lemma DiscoveryFirst(req: Request, env: Collaborators)
    ensures var r := HandleAllDbsAndSchemas(req, env);
      && (forall i, j :: 0 <= i < j < |r.effects| && IsDiscovery(r.effects[j]) ==> IsDiscovery(r.effects[i]))
      && (forall i :: 0 <= i < |r.effects| && r.effects[i].FetchMetadata? ==>
            !IsSystemDatabase(r.effects[i].database))
  {
    var r := HandleAllDbsAndSchemas(req, env);
    if !MissingQuery(req.userQuery) && env.databases.Success? {
      var built := BuildSchema(env.databases.value, env.metadata);
      var head := [EnumerateDatabases] + built.effects;
      assert forall i :: 0 <= i < |head| ==> IsDiscovery(head[i]);
      if built.result.Success? {
        var schema := built.result.value;
        var history := PreCallHistory(req, schema, env.stringify);
        var answer := AnswerWithTool(history, schema, env.complete, env.decodeArguments, env.runQuery);
        AnswerNeverDiscovers(history, schema, env.complete, env.decodeArguments, env.runQuery);
        assert r.effects == head + answer.effects;
        assert forall i :: |head| <= i < |r.effects| ==> !IsDiscovery(r.effects[i]);
      }
    }
  }

  /** The conversation makes only model calls and SQL queries. */
  lemma AnswerNeverDiscovers(
    history: seq<Message>, schema: seq<DatabaseSchema>,
    complete: Model, decode: string -> Option<string>, run: string -> QueryOutcome)
    ensures var r := AnswerWithTool(history, schema, complete, decode, run);
      forall i :: 0 <= i < |r.effects| ==> !IsDiscovery(r.effects[i])
  {
  }
}

=== FILE: introspection.dfy ===
/** Schema discovery across databases: every enumerated database outside the system set
    is described by its grouped catalog rows, in enumeration order. */
module Introspection {
  import opened Wrappers
  import opened Schema
  import opened Effects

  /** The enumerated databases the handler describes, in enumeration order. */
  function EligibleDatabases(names: seq<string>): (r: seq<string>)
    ensures forall x :: x in r <==> x in names && !IsSystemDatabase(x)
    ensures |r| <= |names|
    ensures |names| == 1 ==> r == (if IsSystemDatabase(names[0]) then [] else names)
  {
    if |names| == 0 then []
    else if IsSystemDatabase(names[0]) then EligibleDatabases(names[1..])
    else [names[0]] + EligibleDatabases(names[1..])
  }

  /** The filter keeps enumeration order and every occurrence: it distributes over
      concatenation, so with the one-name case it is fixed name by name. */
  lemma {:induction false} EligibleDatabasesAppend(a: seq<string>, b: seq<string>)
    ensures EligibleDatabases(a + b) == EligibleDatabases(a) + EligibleDatabases(b)
  {
    if |a| > 0 {
      assert (a + b)[1..] == a[1..] + b;
      EligibleDatabasesAppend(a[1..], b);
    } else {
      assert a + b == b;
    }
  }

  /** `effects` fetched the metadata of the first `|effects|` eligible databases, in order. */
  predicate FetchedInOrder(effects: seq<Effect>, eligible: seq<string>) {
    && |effects| <= |eligible|
    && forall i :: 0 <= i < |effects| ==> effects[i] == FetchMetadata(eligible[i])
  }

  /** The schema map. `metadata` stands for the per-database catalog query; a rejected query
      ends discovery with that query's error, as the handler does not catch it. */
  function BuildSchema(names: seq<string>, metadata: string -> Result<seq<Row>, string>)
    : (r: Run<Result<seq<DatabaseSchema>, string>>)
    ensures forall i :: 0 <= i < |r.effects| ==>
      r.effects[i].FetchMetadata? && !IsSystemDatabase(r.effects[i].database)
    ensures r.result.Success? ==> forall i :: 0 <= i < |r.result.value| ==>
      !IsSystemDatabase(r.result.value[i].databaseName)
    decreases |names|
  {
    if |names| == 0 then Run(Success([]), [])
    else if IsSystemDatabase(names[0]) then BuildSchema(names[1..], metadata)
    else
      var fetch := FetchMetadata(names[0]);
      match metadata(names[0])
      case Failure(e) => Run(Failure(e), [fetch])
      case Success(rows) =>
        var rest := BuildSchema(names[1..], metadata);
        var result := match rest.result
          case Success(tail) => Success([DatabaseSchema(names[0], GroupRows(rows))] + tail)
          case Failure(e) => Failure(e);
        Run(result, [fetch] + rest.effects)
  }

  /** Only eligible databases are queried, one after another in enumeration order, and
      discovery succeeds exactly when every eligible database's query does. */
  lemma BuildSchemaFetches(names: seq<string>, metadata: string -> Result<seq<Row>, string>)
    ensures var r := BuildSchema(names, metadata);
      var eligible := EligibleDatabases(names);
      && FetchedInOrder(r.effects, eligible)
      && (r.result.Success? <==> AllFetchable(eligible, metadata))
      && (r.result.Success? ==> |r.effects| == |eligible|)
  {
    BuildSchemaFetchOrder(names, metadata);
    BuildSchemaSucceeds(names, metadata);
  }

  lemma {:induction false} BuildSchemaFetchOrder(names: seq<string>, metadata: string -> Result<seq<Row>, string>)
    ensures var r := BuildSchema(names, metadata);
      var eligible := EligibleDatabases(names);
      && FetchedInOrder(r.effects, eligible)
      && (r.result.Success? ==> |r.effects| == |eligible|)
    decreases |names|
  {
    if |names| > 0 {
      BuildSchemaFetchOrder(names[1..], metadata);
      if !IsSystemDatabase(names[0]) {
        var r := BuildSchema(names, metadata);
        var eligible := EligibleDatabases(names);
        var rest := BuildSchema(names[1..], metadata);
        assert eligible == [names[0]] + EligibleDatabases(names[1..]);
        if metadata(names[0]).Success? {
          assert r.effects == [FetchMetadata(names[0])] + rest.effects;
          forall i | 0 <= i < |r.effects|
            ensures r.effects[i] == FetchMetadata(eligible[i])
          {
            if i > 0 {
              assert r.effects[i] == rest.effects[i - 1];
            }
          }
        }
      }
    }
  }

  lemma {:induction false} BuildSchemaSucceeds(names: seq<string>, metadata: string -> Result<seq<Row>, string>)
    ensures BuildSchema(names, metadata).result.Success? <==> AllFetchable(EligibleDatabases(names), metadata)
    decreases |names|
  {
    if |names| > 0 {
      BuildSchemaSucceeds(names[1..], metadata);
      if !IsSystemDatabase(names[0]) {
        assert EligibleDatabases(names) == [names[0]] + EligibleDatabases(names[1..]);
        AllFetchableCons(names[0], EligibleDatabases(names[1..]), metadata);
      }
    }
  }

  /** Every database of `databases` answers its catalog query. */
  predicate AllFetchable(databases: seq<string>, metadata: string -> Result<seq<Row>, string>) {
    forall i :: 0 <= i < |databases| ==> metadata(databases[i]).Success?
  }

  lemma AllFetchableCons(name: string, rest: seq<string>, metadata: string -> Result<seq<Row>, string>)
    ensures AllFetchable([name] + rest, metadata) <==> metadata(name).Success? && AllFetchable(rest, metadata)
  {
    var all := [name] + rest;
    if metadata(name).Success? && AllFetchable(rest, metadata) {
      forall i | 0 <= i < |all|
        ensures metadata(all[i]).Success?
      {
        if i > 0 {
          assert all[i] == rest[i - 1];
        }
      }
    }
    if AllFetchable(all, metadata) {
      assert all[0] == name;
      forall i | 0 <= i < |rest|
        ensures metadata(rest[i]).Success?
      {
        assert all[i + 1] == rest[i];
      }
    }
  }

  /** On success there is exactly one entry per eligible database, in enumeration order,
      holding that database's grouped catalog rows. */
  lemma {:induction false} BuildSchemaEntries(names: seq<string>, metadata: string -> Result<seq<Row>, string>)
    ensures var r := BuildSchema(names, metadata);
      var eligible := EligibleDatabases(names);
      r.result.Success? ==>
        && |r.result.value| == |eligible|
        && forall i :: 0 <= i < |eligible| ==>
             metadata(eligible[i]).Success?
             && r.result.value[i] == DatabaseSchema(eligible[i], GroupRows(metadata(eligible[i]).value))
    decreases |names|
  {
    if |names| > 0 {
      BuildSchemaEntries(names[1..], metadata);
      var r := BuildSchema(names, metadata);
      if !IsSystemDatabase(names[0]) && r.result.Success? {
        var eligible := EligibleDatabases(names);
        var later := EligibleDatabases(names[1..]);
        var rest := BuildSchema(names[1..], metadata);
        assert eligible == [names[0]] + later;
        var head := DatabaseSchema(names[0], GroupRows(metadata(names[0]).value));
        assert r.result.value == [head] + rest.result.value;
        forall i | 0 <= i < |eligible|
          ensures metadata(eligible[i]).Success?
          ensures r.result.value[i] == DatabaseSchema(eligible[i], GroupRows(metadata(eligible[i]).value))
        {
          if i > 0 {
            assert eligible[i] == later[i - 1];
            assert r.result.value[i] == rest.result.value[i - 1];
          }
        }
      }
    }
  }

  /** A failure carries the error of the first eligible database whose query was rejected,
      and that query is the last one made. */
  lemma {:induction false} BuildSchemaFailure(names: seq<string>, metadata: string -> Result<seq<Row>, string>)
    ensures var r := BuildSchema(names, metadata);
      var eligible := EligibleDatabases(names);
      r.result.Failure? ==>
        && 0 < |r.effects| <= |eligible|
        && metadata(eligible[|r.effects| - 1]).Failure?
        && r.result.error == metadata(eligible[|r.effects| - 1]).error
        && forall j :: 0 <= j < |r.effects| - 1 ==> metadata(eligible[j]).Success?
    decreases |names|
  {
    if |names| > 0 {
      BuildSchemaFailure(names[1..], metadata);
      var r := BuildSchema(names, metadata);
      if IsSystemDatabase(names[0]) {
        assert r == BuildSchema(names[1..], metadata);
        assert EligibleDatabases(names) == EligibleDatabases(names[1..]);
      } else if r.result.Failure? {
        var eligible := EligibleDatabases(names);
        var later := EligibleDatabases(names[1..]);
        assert eligible == [names[0]] + later;
        if metadata(names[0]).Failure? {
          assert r == Run(Failure(metadata(names[0]).error), [FetchMetadata(names[0])]);
          assert eligible[0] == names[0];
        } else {
          var rest := BuildSchema(names[1..], metadata);
          assert r.effects == [FetchMetadata(names[0])] + rest.effects;
          assert eligible[|r.effects| - 1] == later[|rest.effects| - 1];
          forall j | 0 <= j < |r.effects| - 1
            ensures metadata(eligible[j]).Success?
          {
            if j > 0 {
              assert eligible[j] == later[j - 1];
            }
          }
        }
      }
    }
  }
}

=== FILE: messages.dfy ===
/** Conversation entries exchanged with the language model. */
module Messages {

  /** A model's request to invoke a declared tool, with its correlation id and the
      arguments as the model wrote them (JSON text). */
  datatype ToolCall = ToolCall(id: string, name: string, arguments: string)

  /** A role-tagged history entry. `PlainText` is a bare string entry: the handler pushes a
      textual user query into the history as it arrives, without wrapping it in a role. */
  datatype Message =
    | SystemMessage(content: string)
    | UserMessage(content: string)
    | AssistantMessage(content: string, toolCalls: seq<ToolCall>)
    | ToolMessage(toolCallId: string, content: string)
    | PlainText(text: string)
}

=== FILE: schema.dfy ===
/** The schema map built by the `/allDbsAndSchemas` handler: catalog rows of one database
    grouped, find-or-create, into tables of columns. */
module Schema {
  import opened Wrappers

  /** One row of the per-database catalog query: a column of a base table, with its
      type and the nullable size and precision fields the query also selects. */
  datatype Row = Row(
    tableName: string,
    columnName: string,
    dataType: string,
    maxLength: Option<int>,
    precision: Option<int>,
    scale: Option<int>)

  datatype Column = Column(columnName: string, dataType: string)

  datatype Table = Table(tableName: string, columns: seq<Column>)

  datatype DatabaseSchema = DatabaseSchema(databaseName: string, tables: seq<Table>)

  /** The databases the handler never describes. */
  const SystemDatabases: seq<string> := ["master", "tempdb", "model", "msdb"]

  predicate IsSystemDatabase(name: string) {
    name in SystemDatabases
  }

  /** The column a row contributes: its name and data type, nothing else. */
  function ColumnOf(row: Row): Column {
    Column(row.columnName, row.dataType)
  }

  predicate Distinct(names: seq<string>) {
    forall i, j :: 0 <= i < j < |names| ==> names[i] != names[j]
  }

  function NamesOfTables(tables: seq<Table>): seq<string> {
    seq(|tables|, i requires 0 <= i < |tables| => tables[i].tableName)
  }

  /** Table names within one database are pairwise different. */
  predicate UniqueNames(tables: seq<Table>) {
    Distinct(NamesOfTables(tables))
  }

  function TotalColumns(tables: seq<Table>): nat {
    if |tables| == 0 then 0 else |tables[0].columns| + TotalColumns(tables[1..])
  }

  // ---------------------------------------------------------------------------
  // The grouping as the handler performs it

  /** Index of the first table called `name`, as `Array.prototype.find` searches. */
  function FindTable(tables: seq<Table>, name: string): (r: Option<nat>)
    ensures r.Some? ==> r.value < |tables| && tables[r.value].tableName == name
    ensures r.Some? ==> forall j :: 0 <= j < r.value ==> tables[j].tableName != name
    ensures r.None? ==> forall j :: 0 <= j < |tables| ==> tables[j].tableName != name
  {
    if |tables| == 0 then None
    else if tables[0].tableName == name then Some(0)
    else match FindTable(tables[1..], name)
      case Some(k) => Some(k + 1)
      case None => None
  }

  /** One step of the `forEach`: append the row's column to the table of the same name,
      creating that table at the end when it does not exist yet. */
  function AddRow(tables: seq<Table>, row: Row): (r: seq<Table>)
    ensures UniqueNames(tables) ==> UniqueNames(r)
    ensures TotalColumns(r) == TotalColumns(tables) + 1
    ensures |r| == |tables| + (if row.tableName in NamesOfTables(tables) then 0 else 1)
    ensures forall i :: 0 <= i < |tables| ==> r[i].tableName == tables[i].tableName
    ensures row.tableName !in NamesOfTables(tables) ==> r[|tables|] == Table(row.tableName, [ColumnOf(row)])
    ensures UniqueNames(tables) ==> forall i :: 0 <= i < |tables| ==>
      r[i].columns == tables[i].columns + (if tables[i].tableName == row.tableName then [ColumnOf(row)] else [])
  {
    match FindTable(tables, row.tableName)
    case Some(k) =>
      var t := tables[k].(columns := tables[k].columns + [ColumnOf(row)]);
      TotalColumnsUpdate(tables, k, t);
      OnlyFoundTableGrows(tables, k, row);
      assert NamesOfTables(tables[k := t]) == NamesOfTables(tables);
      assert NamesOfTables(tables)[k] == row.tableName;
      tables[k := t]
    case None =>
      var t := Table(row.tableName, [ColumnOf(row)]);
      TotalColumnsAppend(tables, t);
      assert NamesOfTables(tables + [t]) == NamesOfTables(tables) + [row.tableName];
      assert row.tableName !in NamesOfTables(tables);
      tables + [t]
  }

  /** The tables of one database, built from its catalog rows in row order. */
  function GroupRows(rows: seq<Row>): (tables: seq<Table>)
    ensures UniqueNames(tables)
    ensures TotalColumns(tables) == |rows|
  {
    if |rows| == 0 then []
    else AddRow(GroupRows(rows[..|rows| - 1]), rows[|rows| - 1])
  }

  /** With unique names, the table found for the row is the only one carrying its name. */
  lemma OnlyFoundTableGrows(tables: seq<Table>, k: nat, row: Row)
    requires k < |tables| && tables[k].tableName == row.tableName
    ensures UniqueNames(tables) ==> forall i :: 0 <= i < |tables| ==>
      (tables[i].tableName == row.tableName <==> i == k)
  {
    if UniqueNames(tables) {
      forall i | 0 <= i < |tables|
        ensures tables[i].tableName == row.tableName <==> i == k
      {
        assert NamesOfTables(tables)[i] == tables[i].tableName;
        assert NamesOfTables(tables)[k] == tables[k].tableName;
      }
    }
  }

  lemma {:induction false} TotalColumnsUpdate(tables: seq<Table>, k: nat, t: Table)
    requires k < |tables|
    ensures TotalColumns(tables[k := t]) + |tables[k].columns| == TotalColumns(tables) + |t.columns|
  {
    if k == 0 {
      assert tables[k := t][1..] == tables[1..];
    } else {
      assert tables[k := t][1..] == tables[1..][k - 1 := t];
      TotalColumnsUpdate(tables[1..], k - 1, t);
    }
  }

  lemma {:induction false} TotalColumnsAppend(tables: seq<Table>, t: Table)
    ensures TotalColumns(tables + [t]) == TotalColumns(tables) + |t.columns|
  {
    if |tables| == 0 {
      assert tables + [t] == [t];
    } else {
      assert (tables + [t])[1..] == tables[1..] + [t];
      TotalColumnsAppend(tables[1..], t);
    }
  }

  // ---------------------------------------------------------------------------
  // An independent description of the same grouping

  /** The table name of every row, in row order. */
  function TableNamesOf(rows: seq<Row>): seq<string> {
    seq(|rows|, i requires 0 <= i < |rows| => rows[i].tableName)
  }

  /** The names in the order of their first occurrence, each kept once. */
  function FirstOccurrences(names: seq<string>): (r: seq<string>)
    ensures forall x :: x in r <==> x in names
    ensures Distinct(r)
  {
    if |names| == 0 then []
    else
      var earlier := FirstOccurrences(names[..|names| - 1]);
      var last := names[|names| - 1];
      assert names == names[..|names| - 1] + [last];
      if last in names[..|names| - 1] then earlier else earlier + [last]
  }

  /** The columns of the rows that belong to table `name`, in row order. */
  function ColumnsNamed(rows: seq<Row>, name: string): (cs: seq<Column>)
    ensures cs == [] <==> forall j :: 0 <= j < |rows| ==> rows[j].tableName != name
  {
    if |rows| == 0 then []
    else
      var last := rows[|rows| - 1];
      ColumnsNamed(rows[..|rows| - 1], name) + (if last.tableName == name then [ColumnOf(last)] else [])
  }

  /** One table per distinct table name, in first-occurrence order, holding exactly the
      columns of that table's rows in row order. */
  function ReferenceTables(rows: seq<Row>): seq<Table> {
    var names := FirstOccurrences(TableNamesOf(rows));
    seq(|names|, i requires 0 <= i < |names| => Table(names[i], ColumnsNamed(rows, names[i])))
  }

  /** The find-or-create loop computes exactly the reference grouping. */
  lemma {:induction false} GroupRowsIsReference(rows: seq<Row>)
    ensures GroupRows(rows) == ReferenceTables(rows)
  {
    if |rows| > 0 {
      var before := rows[..|rows| - 1];
      GroupRowsIsReference(before);
      if rows[|rows| - 1].tableName in TableNamesOf(before) {
        ReferenceStepSeen(rows);
      } else {
        ReferenceStepNew(rows);
      }
    }
  }

  /** A row of an already seen table extends that table of the reference grouping. */
  lemma ReferenceStepSeen(rows: seq<Row>)
    requires |rows| > 0 && rows[|rows| - 1].tableName in TableNamesOf(rows[..|rows| - 1])
    ensures AddRow(ReferenceTables(rows[..|rows| - 1]), rows[|rows| - 1]) == ReferenceTables(rows)
  {
    var before := rows[..|rows| - 1];
    var row := rows[|rows| - 1];
    var g := ReferenceTables(before);
    var names := FirstOccurrences(TableNamesOf(before));
    SeenNamesUnchanged(rows);
    assert row.tableName in names;
    var k :| 0 <= k < |names| && names[k] == row.tableName;
    FindInReference(before, k);
    var result := AddRow(g, row);
    var expected := ReferenceTables(rows);
    assert result == g[k := g[k].(columns := g[k].columns + [ColumnOf(row)])];
    forall i | 0 <= i < |result|
      ensures result[i] == expected[i]
    {
      ColumnsNamedStep(rows, names[i]);
      if i != k {
        assert names[i] != row.tableName;
      }
    }
  }

  /** A row of a seen table adds no new name. */
  lemma SeenNamesUnchanged(rows: seq<Row>)
    requires |rows| > 0 && rows[|rows| - 1].tableName in TableNamesOf(rows[..|rows| - 1])
    ensures FirstOccurrences(TableNamesOf(rows)) == FirstOccurrences(TableNamesOf(rows[..|rows| - 1]))
  {
    assert TableNamesOf(rows)[..|rows| - 1] == TableNamesOf(rows[..|rows| - 1]);
  }

  /** In the reference grouping the table called `names[k]` is found at index `k`. */
  lemma FindInReference(rows: seq<Row>, k: nat)
    requires k < |FirstOccurrences(TableNamesOf(rows))|
    ensures var names := FirstOccurrences(TableNamesOf(rows));
      FindTable(ReferenceTables(rows), names[k]) == Some(k)
  {
    var names := FirstOccurrences(TableNamesOf(rows));
    var g := ReferenceTables(rows);
    assert forall i :: 0 <= i < |g| ==> g[i].tableName == names[i];
  }

  /** Unfolds `ColumnsNamed` at the last row. */
  lemma ColumnsNamedStep(rows: seq<Row>, name: string)
    requires |rows| > 0
    ensures ColumnsNamed(rows, name) == ColumnsNamed(rows[..|rows| - 1], name)
      + (if rows[|rows| - 1].tableName == name then [ColumnOf(rows[|rows| - 1])] else [])
  {
  }

  /** A row of a table not seen before adds that table, with the row's column, at the end. */
  lemma ReferenceStepNew(rows: seq<Row>)
    requires |rows| > 0 && rows[|rows| - 1].tableName !in TableNamesOf(rows[..|rows| - 1])
    ensures AddRow(ReferenceTables(rows[..|rows| - 1]), rows[|rows| - 1]) == ReferenceTables(rows)
  {
    var before := rows[..|rows| - 1];
    var row := rows[|rows| - 1];
    var g := ReferenceTables(before);
    var names := FirstOccurrences(TableNamesOf(before));
    assert TableNamesOf(rows)[..|rows| - 1] == TableNamesOf(before);
    assert FirstOccurrences(TableNamesOf(rows)) == names + [row.tableName];
    assert |g| == |names|;
    assert forall i :: 0 <= i < |g| ==> g[i].tableName == names[i];
    assert FindTable(g, row.tableName) == None;
    var result := AddRow(g, row);
    var expected := ReferenceTables(rows);
    assert forall j :: 0 <= j < |before| ==> before[j].tableName != row.tableName by {
      forall j | 0 <= j < |before|
        ensures before[j].tableName != row.tableName
      {
        assert TableNamesOf(before)[j] == before[j].tableName;
      }
    }
    forall i | 0 <= i < |result|
      ensures result[i] == expected[i]
    {
      if i < |g| {
        assert names[i] != row.tableName;
        assert ColumnsNamed(rows, names[i]) == ColumnsNamed(before, names[i]);
      } else {
        assert ColumnsNamed(rows, row.tableName) == [ColumnOf(row)];
      }
    }
  }

  /** Tables come in the order their name first occurs among the rows, and each holds
      the columns of its rows in row order. */
  lemma GroupRowsOrder(rows: seq<Row>)
    ensures var names := FirstOccurrences(TableNamesOf(rows));
      && |GroupRows(rows)| == |names|
      && forall i :: 0 <= i < |names| ==>
           GroupRows(rows)[i].tableName == names[i]
           && GroupRows(rows)[i].columns == ColumnsNamed(rows, names[i])
  {
    GroupRowsIsReference(rows);
  }

  lemma {:induction false} ColumnsNamedHasRow(rows: seq<Row>, j: nat)
    requires j < |rows|
    ensures ColumnOf(rows[j]) in ColumnsNamed(rows, rows[j].tableName)
  {
    if j < |rows| - 1 {
      ColumnsNamedHasRow(rows[..|rows| - 1], j);
    }
  }

  /** No row is lost: every row's column sits in the one table carrying the row's table name. */
  lemma EveryRowPlaced(rows: seq<Row>, j: nat)
    requires j < |rows|
    ensures exists i :: (0 <= i < |GroupRows(rows)|
      && GroupRows(rows)[i].tableName == rows[j].tableName
      && ColumnOf(rows[j]) in GroupRows(rows)[i].columns)
  {
    GroupRowsIsReference(rows);
    var names := FirstOccurrences(TableNamesOf(rows));
    assert TableNamesOf(rows)[j] == rows[j].tableName;
    assert rows[j].tableName in names;
    var i :| 0 <= i < |names| && names[i] == rows[j].tableName;
    ColumnsNamedHasRow(rows, j);
    assert GroupRows(rows)[i].columns == ColumnsNamed(rows, rows[j].tableName);
  }

  /** Size and precision fields do not reach the schema: rows that agree on table name,
      column name and data type group identically. */
  lemma {:induction false} GroupRowsIgnoresSizes(a: seq<Row>, b: seq<Row>)
    requires |a| == |b|
    requires forall i :: 0 <= i < |a| ==> a[i].tableName == b[i].tableName && ColumnOf(a[i]) == ColumnOf(b[i])
    ensures GroupRows(a) == GroupRows(b)
  {
    if |a| > 0 {
      GroupRowsIgnoresSizes(a[..|a| - 1], b[..|b| - 1]);
    }
  }
}

=== FILE: tool_calls.dfy ===
/** Resolving the model's tool calls: each `ask_database` call runs its query and becomes a
    `tool` message correlated by id; any other tool name is a failure. */
module ToolCalls {
  import opened Wrappers
  import opened Messages
  import opened ToolDeclarations
  import opened Effects

  /** What the SQL engine gives back, already in text form: the JSON of the record set,
      or the string form of the error the query raised. */
  datatype QueryOutcome = Records(json: string) | QueryFailed(error: string)

  datatype ToolError = UnknownTool(name: string) | MalformedArguments(arguments: string)

  const ResultPrefix := "The result from running the SQL query you generated is: ."

  /** `ask_database`: run the query; a rejected query is turned into its error text instead
      of failing, so the caller always receives text. */
  function AskDatabase(query: string, run: string -> QueryOutcome): (r: Run<string>)
    ensures r.effects == [RunQuery(query)]
    ensures run(query).QueryFailed? ==> r.result == run(query).error
    ensures run(query).Records? ==> r.result == run(query).json
  {
    var text := match run(query)
      case Records(json) => json
      case QueryFailed(error) => error;
    Run(text, [RunQuery(query)])
  }

  /** A call the resolution can answer: it names `ask_database` and its arguments decode to
      a query. */
  predicate WellFormed(call: ToolCall, decode: string -> Option<string>) {
    call.name == AskDatabaseName && decode(call.arguments).Some?
  }

  /** The `tool` message that answers a well-formed call. */
  function Answer(call: ToolCall, decode: string -> Option<string>, run: string -> QueryOutcome): Message
    requires WellFormed(call, decode)
  {
    ToolMessage(call.id, ResultPrefix + AskDatabase(decode(call.arguments).value, run).result)
  }

  /** The `tool` messages answering a batch of well-formed calls, in request order. */
  function Answers(calls: seq<ToolCall>, decode: string -> Option<string>, run: string -> QueryOutcome)
    : seq<Message>
    requires forall i :: 0 <= i < |calls| ==> WellFormed(calls[i], decode)
  {
    seq(|calls|, i requires 0 <= i < |calls| => Answer(calls[i], decode, run))
  }

  /** `applyToolCall`. `decode` stands for parsing the JSON arguments and taking `query`;
      `None` is a parse failure. */
  function ApplyToolCall(call: ToolCall, decode: string -> Option<string>, run: string -> QueryOutcome)
    : (r: Run<Result<Message, ToolError>>)
    ensures r.result.Success? <==> WellFormed(call, decode)
    ensures r.result.Success? ==>
      && r.result.value.ToolMessage?
      && r.result.value.toolCallId == call.id
      && r.result.value.content == ResultPrefix + AskDatabase(decode(call.arguments).value, run).result
      && r.effects == [RunQuery(decode(call.arguments).value)]
    ensures r.result.Failure? ==> r.effects == []
    ensures call.name != AskDatabaseName ==> r.result == Failure(UnknownTool(call.name))
  {
    if call.name == AskDatabaseName then
      match decode(call.arguments)
      case None => Run(Failure(MalformedArguments(call.arguments)), [])
      case Some(query) =>
        var answer := AskDatabase(query, run);
        Run(Success(ToolMessage(call.id, ResultPrefix + answer.result)), answer.effects)
    else
      Run(Failure(UnknownTool(call.name)), [])
  }

  /** A query the SQL engine rejects still yields a `tool` message, carrying the error text. */
  lemma QueryFailureBecomesContent(call: ToolCall, decode: string -> Option<string>, run: string -> QueryOutcome)
    requires WellFormed(call, decode)
    requires run(decode(call.arguments).value).QueryFailed?
    ensures ApplyToolCall(call, decode, run).result
         == Success(ToolMessage(call.id, ResultPrefix + run(decode(call.arguments).value).error))
  {
  }

  function CountWellFormed(calls: seq<ToolCall>, decode: string -> Option<string>): nat {
    if |calls| == 0 then 0
    else (if WellFormed(calls[0], decode) then 1 else 0) + CountWellFormed(calls[1..], decode)
  }

  /** `Promise.all` over `applyToolCall`: every call is started, in request order, and the
      whole resolution fails when any one call fails. */
  function ResolveToolCalls(calls: seq<ToolCall>, decode: string -> Option<string>, run: string -> QueryOutcome)
    : (r: Run<Option<seq<Message>>>)
    ensures forall i :: 0 <= i < |r.effects| ==> r.effects[i].RunQuery?
    ensures r.result.Some? ==> |r.result.value| == |calls|
  {
    if |calls| == 0 then Run(Some([]), [])
    else
      var first := ApplyToolCall(calls[0], decode, run);
      var rest := ResolveToolCalls(calls[1..], decode, run);
      var result :=
        if first.result.Success? && rest.result.Some? then Some([first.result.value] + rest.result.value)
        else None;
      Run(result, first.effects + rest.effects)
  }

  /** Resolution succeeds exactly when every call is well formed, and then yields one `tool`
      message per call, in request order, each correlated to its call's id. */
  lemma {:induction false} ResolveToolCallsCorrelates(
    calls: seq<ToolCall>, decode: string -> Option<string>, run: string -> QueryOutcome)
    ensures var r := ResolveToolCalls(calls, decode, run);
      && (r.result.Some? <==> forall i :: 0 <= i < |calls| ==> WellFormed(calls[i], decode))
      && (r.result.Some? ==>
            && |r.result.value| == |calls|
            && forall i :: 0 <= i < |calls| ==>
                 WellFormed(calls[i], decode)
                 && r.result.value[i] == Answer(calls[i], decode, run)
                 && r.result.value[i].toolCallId == calls[i].id)
  {
    if |calls| > 0 {
      ResolveToolCallsCorrelates(calls[1..], decode, run);
      var r := ResolveToolCalls(calls, decode, run);
      if forall i :: 0 <= i < |calls| ==> WellFormed(calls[i], decode) {
        assert forall i :: 0 <= i < |calls[1..]| ==> WellFormed(calls[1..][i], decode) by {
          forall i | 0 <= i < |calls[1..]|
            ensures WellFormed(calls[1..][i], decode)
          {
            assert calls[1..][i] == calls[i + 1];
          }
        }
      }
      if r.result.Some? {
        forall i | 0 <= i < |calls|
          ensures WellFormed(calls[i], decode) && r.result.value[i] == Answer(calls[i], decode, run)
        {
          if i > 0 {
            assert calls[i] == calls[1..][i - 1];
          }
        }
      }
    }
  }

  /** Exactly one query is issued per well-formed call, in request order, whether or not
      another call of the batch fails; calls of any other tool issue none. The query of
      well-formed call `k` is the one issued after those of the well-formed calls before it. */
  lemma ResolveToolCallsQueries(
    calls: seq<ToolCall>, decode: string -> Option<string>, run: string -> QueryOutcome)
    ensures var r := ResolveToolCalls(calls, decode, run);
      && |r.effects| == CountWellFormed(calls, decode)
      && (forall i :: 0 <= i < |r.effects| ==> r.effects[i].RunQuery?)
      && ((forall i :: 0 <= i < |calls| ==> WellFormed(calls[i], decode)) ==>
            && |r.effects| == |calls|
            && forall i :: 0 <= i < |calls| ==> r.effects[i] == RunQuery(decode(calls[i].arguments).value))
      && forall k :: 0 <= k < |calls| && WellFormed(calls[k], decode) ==>
           && CountWellFormed(calls[..k], decode) < |r.effects|
           && r.effects[CountWellFormed(calls[..k], decode)] == RunQuery(decode(calls[k].arguments).value)
  {
    QueriesOfBatch(calls, decode, run);
    forall k | 0 <= k < |calls| && WellFormed(calls[k], decode) {
      QueryOfCall(calls, decode, run, k);
    }
  }

  /** The number of queries, and their order when every call is well formed. */
  lemma {:induction false} QueriesOfBatch(
    calls: seq<ToolCall>, decode: string -> Option<string>, run: string -> QueryOutcome)
    ensures var r := ResolveToolCalls(calls, decode, run);
      && |r.effects| == CountWellFormed(calls, decode)
      && (forall i :: 0 <= i < |r.effects| ==> r.effects[i].RunQuery?)
      && ((forall i :: 0 <= i < |calls| ==> WellFormed(calls[i], decode)) ==>
            && |r.effects| == |calls|
            && forall i :: 0 <= i < |calls| ==> r.effects[i] == RunQuery(decode(calls[i].arguments).value))
  {
    if |calls| > 0 {
      QueriesOfBatch(calls[1..], decode, run);
      var r := ResolveToolCalls(calls, decode, run);
      var first := ApplyToolCall(calls[0], decode, run);
      var rest := ResolveToolCalls(calls[1..], decode, run);
      assert r.effects == first.effects + rest.effects;
      if forall i :: 0 <= i < |calls| ==> WellFormed(calls[i], decode) {
        assert forall i :: 0 <= i < |calls[1..]| ==> WellFormed(calls[1..][i], decode) by {
          forall i | 0 <= i < |calls[1..]|
            ensures WellFormed(calls[1..][i], decode)
          {
            assert calls[1..][i] == calls[i + 1];
          }
        }
        assert |first.effects| == 1;
        forall i | 0 <= i < |calls|
          ensures r.effects[i] == RunQuery(decode(calls[i].arguments).value)
        {
          if i > 0 {
            assert calls[i] == calls[1..][i - 1];
            assert WellFormed(calls[1..][i - 1], decode);
          }
        }
      }
    }
  }

  /** The query of well-formed call `k` comes right after those of the well-formed calls
      before it. */
  lemma {:induction false} QueryOfCall(
    calls: seq<ToolCall>, decode: string -> Option<string>, run: string -> QueryOutcome, k: nat)
    requires k < |calls| && WellFormed(calls[k], decode)
    ensures var r := ResolveToolCalls(calls, decode, run);
      && CountWellFormed(calls[..k], decode) < |r.effects|
      && r.effects[CountWellFormed(calls[..k], decode)] == RunQuery(decode(calls[k].arguments).value)
  {
    var first := ApplyToolCall(calls[0], decode, run);
    var rest := ResolveToolCalls(calls[1..], decode, run);
    assert ResolveToolCalls(calls, decode, run).effects == first.effects + rest.effects;
    assert |first.effects| == (if WellFormed(calls[0], decode) then 1 else 0);
    if k > 0 {
      assert calls[..k][1..] == calls[1..][..k - 1];
      assert calls[k] == calls[1..][k - 1];
      QueryOfCall(calls[1..], decode, run, k - 1);
    }
  }
}

=== FILE: tool_declaration.dfy ===
/** The declaration of the `ask_database` tool offered to the model on the first round. */
module ToolDeclarations {
  import opened Schema

  const AskDatabaseName := "ask_database"

  datatype Property = Property(name: string, valueType: string, description: string)

  /** One entry of the `tools` list: a function tool with an object parameter. */
  datatype ToolDeclaration = ToolDeclaration(
    kind: string,
    name: string,
    description: string,
    properties: seq<Property>,
    required: seq<string>)

  /** The options object passed with the first model call. */
  datatype ToolOptions = ToolOptions(tools: seq<ToolDeclaration>)

  const ObjectTag := "[object Object]"

  /** The default string form of an array of `n` plain objects, which is what a template
      literal produces when it interpolates the schema array itself. */
  function ArrayOfObjectsText(n: nat): string {
    if n == 0 then ""
    else if n == 1 then ObjectTag
    else ArrayOfObjectsText(n - 1) + "," + ObjectTag
  }

  const ToolDescription :=
    "Use this function to answer user questions about music. Input should be a fully formed SQL query."

  const QueryDescriptionHead :=
    "SQL query extracting info to answer the user's question. SQL should be written using this database schema: "

  const QueryDescriptionTail := " The query should be returned in plain text, not in JSON."

  function QueryDescription(schema: seq<DatabaseSchema>): string {
    QueryDescriptionHead + ArrayOfObjectsText(|schema|) + QueryDescriptionTail
  }

  /** The tool options for one request: a single function tool named `ask_database` whose
      only, and required, parameter is the string `query`. */
  function CreateOptions(schema: seq<DatabaseSchema>): (o: ToolOptions)
    ensures |o.tools| == 1
    ensures o.tools[0].kind == "function" && o.tools[0].name == AskDatabaseName
    ensures o.tools[0].required == ["query"]
    ensures |o.tools[0].properties| == 1
    ensures o.tools[0].properties[0].name == "query" && o.tools[0].properties[0].valueType == "string"
  {
    ToolOptions([ToolDeclaration(
      "function",
      AskDatabaseName,
      ToolDescription,
      [Property("query", "string", QueryDescription(schema))],
      ["query"])])
  }

  lemma {:induction false} ArrayOfObjectsTextLength(n: nat)
    ensures |ArrayOfObjectsText(n)| == if n == 0 then 0 else 16 * n - 1
  {
    if n > 1 {
      ArrayOfObjectsTextLength(n - 1);
    }
  }

  /** The declaration sees the schema only through the number of databases: two schemas
      give the same tool options exactly when they list equally many databases. */
  lemma CreateOptionsDependsOnlyOnCount(a: seq<DatabaseSchema>, b: seq<DatabaseSchema>)
    ensures CreateOptions(a) == CreateOptions(b) <==> |a| == |b|
  {
    if CreateOptions(a) == CreateOptions(b) {
      var da := QueryDescription(a);
      var db := QueryDescription(b);
      assert CreateOptions(a).tools[0].properties[0].description == da;
      assert CreateOptions(b).tools[0].properties[0].description == db;
      assert |da| == |db|;
      ArrayOfObjectsTextLength(|a|);
      ArrayOfObjectsTextLength(|b|);
    }
  }
}

=== FILE: wrappers.dfy ===
/** Failure-carrying datatypes shared by every module of the model. */
module Wrappers {

  /** A value that may be absent: JavaScript's `undefined` result of a step that gave up. */
  datatype Option<+T> = None | Some(value: T)

  /** The outcome of a collaborator that either answers or rejects. */
  datatype Result<+T, +E> = Success(value: T) | Failure(error: E)
}
